=== FILE: README.md ===
# Talon key specs to dotool actions, in Dafny

This project models the key translator in `apps/sublime_key_logger.py`.
When Sublime Text is focused, Talon's `key()` action is replaced by one
that turns a Talon key spec into dotool action lines and pipes them to
`dotoolc`.

- A key spec is a whitespace-separated list of chords, such as
  `ctrl-shift-a esc:3 super:down`.
- A chord is some `-`-separated modifier aliases, then a key name, then an
  optional suffix. The suffix is `:down`, `:up` or `:N`.
- Each chord becomes zero or more lines. A line reads `key <chord>`,
  `keydown <chord>` or `keyup <chord>`. Here `<chord>` is the dotool
  modifiers and key joined with `+`.

There are three modules:

- `Text` (`text.dfy`) models the Python string operations the translator
  relies on. These are `str.strip`, `str.split()`, `str.split(sep)` with
  `str.join`, `str.rsplit(sep, 1)`, `str.lower`, `str.isdigit` and `int`.
  Each one comes with the laws the translator needs. Examples: splitting
  then joining gives back the string, splitting whitespace-joined words
  gives back the words, and parsing the decimal form of a number gives the number back.
- `Translator` (`translator.dfy`) models the pipeline. There is one
  function per Python helper:
  - `ParseSuffix`, for `_parse_suffix`
  - `SplitModifiers`, for `_split_modifiers`
  - `NormalizeAlphaKey`, for `_normalize_alpha_key`
  - `NormalizeKeyName`, for `_normalize_key_name`
  - `BuildChord`, for `_build_chord`
  - `ModsOnlyActions`, for `_mods_only_actions`
  - `ActionsForChord`, for `_dotool_actions_for_chord`
  - `TalonKeyToDotoolActions`, for `_talon_key_to_dotool_actions`

  `DotoolBatch` models the text that `MainActions.key` sends to `dotoolc`.
- `Scenarios` (`scenarios.dfy`) works through recognisable chords under a
  keymap whose only entry is one self-named modifier alias `m`. The chords
  are `m-X` for an upper-case letter `X`, and `m` and `m:N` on their own.

`MODIFIER_ALIASES`, `SYMBOL_KEY_MAP` and `KEY_NAME_MAP` come from
`apps/keymap_dotool.py`, which is not part of this model. They are a
`Keymap` parameter with arbitrary contents, so every property holds for
any table contents.

Every operation is a pure function, so translating a spec is
deterministic. The same spec and tables always give the same lines.

### Modifier-only chords ignore their suffix

The module docstring lists `:down`, `:up` and `:N` as suffixes and does
not exempt modifier-only chords.
The code only looks at the verb and the repeat count once the normalised
key is non-empty (`apps/sublime_key_logger.py:159-167`). So `ctrl:down`
gives a `keydown ctrl`/`keyup ctrl` pair, and `super:3` gives one pair
rather than three. The model follows the code.
`ModifierChordIgnoresPress` and `ModifierChordIgnoresRepeat` state this
behaviour for every non-empty, colon-free, whitespace-free chord that
reduces to modifiers only.

## Model

| member | source | states |
|---|---|---|
| Translator.ParseLineOfLine | apps/sublime_key_logger.py:160-167 | Every line the translator emits reads back as its verb and chord. `key `, `keydown ` and `keyup ` prefixes never overlap. |
| Translator.LineInjective | apps/sublime_key_logger.py:160-167 | Two emitted lines are equal only when their verbs and chord strings are equal. |
| Translator.ParseSuffix | apps/sublime_key_logger.py:112-121 | The repeat count is always at least 1. A press verb always comes with a count of 1. A chord without `:` is returned unchanged as a plain `key` chord. When the base differs from the chord, the chord is that base plus `:` plus a suffix. |
| Translator.PressSuffix | apps/sublime_key_logger.py:117-120 | Exactly `down` and `up` select a verb: `down` selects keydown and `up` selects keyup. Such a suffix is not a number, has no colon and has no whitespace. |
| Translator.ParseSuffixSplit | apps/sublime_key_logger.py:114 | The split happens at the last colon. Appending `:` and a colon-free suffix to any base splits back into that base and suffix. |
| Translator.ParseSuffixPress | apps/sublime_key_logger.py:117-120 | For any base, `base:down` and `base:up` parse to that base with the keydown or keyup verb and one repetition. |
| Translator.ParseSuffixRepeat | apps/sublime_key_logger.py:115-116 | For any base, `base:<digits>` parses to that base with verb `key` and repeat `max(1, int(digits))`. |
| Translator.ParseSuffixCount | apps/sublime_key_logger.py:115-116 | Appending the decimal form of any count `n` reads back as `n` repetitions, or 1 when `n` is 0. |
| Translator.ParseSuffixFallback | apps/sublime_key_logger.py:121 | Any other colon-free suffix is not removed. The whole chord is kept as the base, with verb `key` and one repetition. |
| Translator.AliasPrefix | apps/sublime_key_logger.py:63-67 | Every part before the returned index is a modifier alias. The part at that index, if there is one, is not. |
| Translator.ScanParts | apps/sublime_key_logger.py:63-67 | The loop loses no part: the two output lists together hold as many parts as the input. Once a key part has been seen, every later part goes to the key, aliases included. |
| Translator.ScanPartsPrefix | apps/sublime_key_logger.py:60-68 | Starting with no key part, the loop turns exactly the longest leading run of aliases into modifiers. The run is renamed through the alias table, and the rest of the parts become the key. |
| Translator.SplitModifiers | apps/sublime_key_logger.py:60-68 | The modifiers are the aliases of the longest alias prefix of the `-`-parts, in order. The key is the remaining parts rejoined with `-`. A chord whose first part is not an alias has no modifiers, and its key is the whole chord. |
| Translator.SplitModifiersCount | apps/sublime_key_logger.py:60-68 | When some part is not an alias, splitting the key at `-` recovers the key parts, and the modifier count plus the key-part count equals the part count. When every part is an alias, the key is empty. |
| Translator.NormalizeAlphaKey | apps/sublime_key_logger.py:134-138 | A single upper-case letter becomes lower case, and `shift` ends up among the modifiers. Any other key leaves both key and modifiers unchanged. When `shift` is already present the modifiers are returned unchanged. Otherwise the original modifiers stay first and at most one modifier is added. `shift` is never duplicated. |
| Translator.NormalizeAlphaKeyIdempotent | apps/sublime_key_logger.py:134-138 | Normalising the result a second time changes nothing. |
| Translator.NormalizeKeyName | apps/sublime_key_logger.py:39-48 | The rules apply in precedence order. An empty key stays empty. A symbol-table entry wins next. Then `keypad_X` becomes `kpX`. A raw `x:`/`k:` keycode is looked up as written. Any other key is lower-cased and then looked up, falling back to itself. |
| Translator.NormalizeKeyNameIgnoresCase | apps/sublime_key_logger.py:45-48 | Outside the symbol-table, keypad and raw-keycode rules, a key name is case-insensitive. It normalises exactly as its lower-case spelling does. |
| Translator.NormalizeKeyNameRawKeycode | apps/sublime_key_logger.py:46-48 | A raw `x:`/`k:` keycode that is in neither table passes through with its case kept. |
| Translator.BuildChord | apps/sublime_key_logger.py:81-84 | Without modifiers the chord string is the key itself. With an empty key it is the modifiers joined with `+`. With both it is the modifiers joined with `+`, then `+`, then the key, so the key is appended only when non-empty and no modifier is dropped, whatever characters the modifiers hold. A non-empty key is always the tail of the chord string. |
| Translator.BuildChordSplit | apps/sublime_key_logger.py:81-84 | If no modifier or key holds a `+`, the chord string splits at `+` back into the modifiers followed by the non-empty key. |
| Translator.Lines | apps/sublime_key_logger.py:98-99 | Gives one line per item, in item order, with the given verb. |
| Translator.Reverse | apps/sublime_key_logger.py:99 | Gives the same elements in reverse order. |
| Translator.ModsOnlyActions | apps/sublime_key_logger.py:96-100 | Gives two lines per modifier: all the keydowns in modifier order, then all the keyups in reverse order. No modifiers give no lines. |
| Translator.ModsOnlyActionsNested | apps/sublime_key_logger.py:96-100 | Presses and releases nest. The first modifier is pressed first and released last, around the actions of the remaining modifiers. |
| Translator.LinesAppend | apps/sublime_key_logger.py:98-99 | Line generation distributes over concatenation of the items. |
| Translator.Repeat | apps/sublime_key_logger.py:167 | `n` copies of the line, and nothing else. |
| Translator.PlanChord | apps/sublime_key_logger.py:154-157 | The reduced chord always has a repeat of at least 1. |
| Translator.Emit | apps/sublime_key_logger.py:159-167 | With no key, the output is the modifier press/release sequence, whatever the verb and count. With a key, a press verb gives one line for the chord string, and verb `key` gives `max(1, repeat)` identical `key` lines. |
| Translator.EmitWellFormed | apps/sublime_key_logger.py:159-167 | Every emitted line is a well-formed action line. |
| Translator.ActionsForChord | apps/sublime_key_logger.py:150-167 | A blank chord gives no lines. A non-blank chord gives no lines exactly when its stripped form reduces to neither a key nor a modifier. Every line is a well-formed action line. |
| Translator.ActionsForChordStripped | apps/sublime_key_logger.py:150 | Whitespace around a chord does not change its lines. |
| Translator.ActionsForWord | apps/sublime_key_logger.py:150-167 | A non-empty whitespace-free chord gives exactly the lines its plan emits: suffix parse, modifier split, upper-case rule and key-name normalisation, then the emission rules. |
| Translator.ActionsForSuffixedWord | apps/sublime_key_logger.py:150-157 | A whitespace-free chord with a suffix is emitted from its own plan. Stripping does not touch it. |
| Translator.PlanChordPress | apps/sublime_key_logger.py:112-157 | On a colon-free chord, `:down` or `:up` changes only the verb of its plan. |
| Translator.PlanChordCount | apps/sublime_key_logger.py:112-157 | On a colon-free chord, `:N` changes only the repeat of its plan, to `max(1, N)`. |
| Translator.ModifierChordIgnoresPress | apps/sublime_key_logger.py:159-160 | On a non-empty, colon-free, whitespace-free chord that reduces to modifiers only, `:down` and `:up` are ignored. The chord still presses and releases its modifiers once, exactly as the plain chord does. |
| Translator.ModifierChordIgnoresRepeat | apps/sublime_key_logger.py:159-160 | On a non-empty, colon-free, whitespace-free chord that reduces to modifiers only, a `:N` count is ignored and the lines are those of the plain chord. |
| Translator.KeyChordPress | apps/sublime_key_logger.py:162-164 | On a non-empty, colon-free, whitespace-free chord with a key, the plain chord is one `key` line. `:down`/`:up` give one `keydown`/`keyup` line for the same chord string. |
| Translator.ActionsForCount | apps/sublime_key_logger.py:150-157 | On a non-empty, colon-free, whitespace-free chord, the plan has verb `key` and repeat 1. With a `:N` suffix added, the chord's lines are those of the same plan with its repeat replaced by `max(1, N)`. |
| Translator.KeyChordRepeat | apps/sublime_key_logger.py:162-167 | On a non-empty, colon-free, whitespace-free chord with a key, `:N` repeats the plain chord's single `key` line `max(1, N)` times. |
| Translator.ActionsForChords | apps/sublime_key_logger.py:179-183 | The concatenated lines of a list of chords are all well-formed action lines. |
| Translator.FlatMapAppend | apps/sublime_key_logger.py:179-183 | The nested comprehension distributes over concatenation of its input list. |
| Translator.ActionsForChordsAppend | apps/sublime_key_logger.py:179-183 | Translating a concatenated chord list gives the two translations concatenated, in order. |
| Translator.TalonKeyToDotoolActions | apps/sublime_key_logger.py:179-183 | A blank spec gives no lines, and every line is a well-formed action line. |
| Translator.TranslateAppend | apps/sublime_key_logger.py:179-183 | A spec made of two specs separated by a whitespace character translates to their two translations, in order. |
| Translator.TranslateSingleChord | apps/sublime_key_logger.py:179-183 | A spec that is one whitespace-free chord translates to that chord's lines. |
| Translator.TranslateChords | apps/sublime_key_logger.py:179-183 | Space-joined chords translate to the concatenation of each chord's lines. |
| Translator.DotoolBatch | apps/sublime_key_logger.py:197-203 | Nothing is sent to `dotoolc` exactly when the spec translates to no lines. Otherwise the batch ends with a newline. |
| Translator.BatchText | apps/sublime_key_logger.py:198-203 | Nothing is sent exactly when there are no lines. Otherwise the text ends with a newline. |
| Translator.BatchTextLines | apps/sublime_key_logger.py:203 | If no line holds a newline, splitting the text (without its final newline) at newlines gives back exactly the lines, in order. |
| Text.LowerChar | apps/sublime_key_logger.py:45 | An upper-case letter maps to its lower-case letter. Every other character is unchanged. No result is upper case. |
| Text.Lower | apps/sublime_key_logger.py:45 | Lowercasing keeps the length, maps each character with `LowerChar`, and leaves no upper-case letter. |
| Text.LowerIdempotent | apps/sublime_key_logger.py:45 | Lowercasing twice is the same as lowercasing once. |
| Text.LeadingSpace | apps/sublime_key_logger.py:150 | Gives the length of the leading whitespace run. |
| Text.TrailingStart | apps/sublime_key_logger.py:150 | Gives the start of the trailing whitespace run. |
| Text.Strip | apps/sublime_key_logger.py:150 | The result is the slice of `s` that starts after its leading whitespace, and everything after that slice is whitespace. The result is empty exactly for an all-whitespace string, a non-empty result has no whitespace at either end, and a whitespace-free string is unchanged. |
| Text.StripPadded | apps/sublime_key_logger.py:150 | Padding any string that starts and ends with a non-whitespace character with whitespace on either side, and stripping, gives that string back. |
| Text.StripIdempotent | apps/sublime_key_logger.py:150 | Stripping twice is the same as stripping once. |
| Text.Fields | apps/sublime_key_logger.py:60 | Splitting gives at least one field, and no field contains the separator. |
| Text.Split | apps/sublime_key_logger.py:60 | Splitting at a separator gives at least one field, and no field contains the separator. |
| Text.JoinFields | apps/sublime_key_logger.py:60-68 | Rejoining the fields of a partial split gives back the pending field plus the remaining string. |
| Text.JoinSplit | apps/sublime_key_logger.py:60-68 | Splitting at a separator and rejoining gives back the original string. |
| Text.FieldsJoin | apps/sublime_key_logger.py:60-68 | Splitting a join of separator-free parts, with a pending field, gives the parts with the pending field in front of the first one. |
| Text.SplitJoin | apps/sublime_key_logger.py:60-68 | Joining a non-empty list of separator-free parts and splitting again gives back the parts. |
| Text.JoinSnoc | apps/sublime_key_logger.py:82-84 | Joining a non-empty list with one more part appended gives the old join, the separator, then that part. |
| Text.Words | apps/sublime_key_logger.py:181 | Every word is non-empty and free of whitespace. |
| Text.SplitWhitespace | apps/sublime_key_logger.py:181 | Whitespace splitting gives non-empty words without whitespace. |
| Text.SplitWhitespaceBlank | apps/sublime_key_logger.py:181 | An all-whitespace string has no words. |
| Text.SplitWhitespaceAppend | apps/sublime_key_logger.py:181 | The words of `a`, a whitespace character, then `b` are the words of `a` followed by the words of `b`. |
| Text.SplitWhitespaceWord | apps/sublime_key_logger.py:181 | A non-empty whitespace-free string is exactly one word. |
| Text.SplitWhitespaceJoin | apps/sublime_key_logger.py:181 | Space-joining non-empty whitespace-free words and splitting again gives back the words. |
| Text.RSplitOnce | apps/sublime_key_logger.py:112-114 | There is no split exactly when the separator is absent. Otherwise the string is head, separator, tail, and the tail has no separator, so the split is at the last occurrence. |
| Text.RSplitOnceAppend | apps/sublime_key_logger.py:114 | Splitting `a`, separator, separator-free `b` at its last separator gives back `a` and `b`. |
| Text.DigitChar | apps/sublime_key_logger.py:116 | The character for a value below 10 is a digit, and its value is that number. |
| Text.ShowNat | apps/sublime_key_logger.py:116 | The decimal form of a number is a non-empty digit string. |
| Text.ParseShowNat | apps/sublime_key_logger.py:115-116 | Parsing the decimal form of `n` gives `n`. |
| Scenarios.ModifierOnlyPlan | apps/sublime_key_logger.py:154-157 | Take a non-empty name `m` with no whitespace, `-` or `:`, under a keymap whose only alias is `m` for itself. The chord `m` plans to modifier `m`, no key, verb `key` and one repetition. |
| Scenarios.ModifierIsOnePair | apps/sublime_key_logger.py:154-160 | Under that keymap, the chord `m` gives exactly `keydown m` then `keyup m`. |
| Scenarios.ModifierRepeatIsOnePair | apps/sublime_key_logger.py:154-160 | Under that keymap, `m:N` for any digit string `N` also gives exactly `keydown m` then `keyup m`: the count is dropped. |
| Scenarios.ShiftedLetterSplit | apps/sublime_key_logger.py:60-68 | Under that keymap, `m-X` for an upper-case letter `X` other than `m` splits into modifier `m` and key `X`. |
| Scenarios.ShiftedLetterPlan | apps/sublime_key_logger.py:154-157 | Under that keymap, with `m` neither `shift` nor `X` itself, `m-X` plans to modifiers `m` and `shift`, the lower-case letter as key, verb `key` and one repetition. |
| Scenarios.BuildChordOfTwo | apps/sublime_key_logger.py:81-84 | Two modifiers and a non-empty key give the chord string `a+b+key`. |
| Scenarios.EmitTwoModifiers | apps/sublime_key_logger.py:162-166 | A plan with two modifiers, a key, verb `key` and one repetition emits the single line `key a+b+key`. |
| Scenarios.ShiftedLetterActions | apps/sublime_key_logger.py:150-166 | Under that keymap, with `m` neither `shift` nor `X` itself, `m-X` gives the single line `key m+shift+x`, with `x` the lower-case form of `X`. So `ctrl-A` gives `key ctrl+shift+a`. |

## Left out

- `MainActions.key` (`apps/sublime_key_logger.py:186-209`): only the text sent to `dotoolc` is modelled, as `DotoolBatch`. Writing to standard error, running `dotoolc` with its 0.5-second timeout, and catching and logging every exception are I/O, so they are left out.
- The `Context` with its Sublime Text `ctx.matches` (`apps/sublime_key_logger.py:21-27`) and the `@ctx.action_class` registration: this is Talon configuration with no logic of its own.
- The contents of `MODIFIER_ALIASES`, `SYMBOL_KEY_MAP` and `KEY_NAME_MAP`: `apps/keymap_dotool.py` is not part of this model. The tables are a parameter, so no property depends on particular entries.
- Unicode character classes: letters, upper case, lowercasing and digits are ASCII only. Whitespace is space, `\t` to `\r`, and U+001C to U+001F, which is the set Python's `str.isspace` accepts among ASCII characters. Python's own predicates also accept non-ASCII letters, digits and spaces.
- Text.IsAllDigits: it accepts ASCII digits only. Python's `str.isdigit` also accepts other digit characters, such as superscripts, and `int` rejects some of these. In the source, the resulting `ValueError` is swallowed by `MainActions.key`, so the whole key spec is dropped. The model does not produce that failure.
- Text.ParseNat: Python's `int` also limits how long a decimal string may be. Very long strings raise `ValueError`, and the model does not. Repeat counts are unbounded naturals, as Python integers are.
- Translator.PlanChord: its contract only bounds the repeat count. What it computes is stated through `ParseSuffix`, `SplitModifiers`, `NormalizeAlphaKey` and `NormalizeKeyName`, and through the per-chord lemmas that use them.
- Scenarios: the worked chords are stated for any modifier name `m` under a one-entry keymap, not for literal strings such as `ctrl-A` or `super:3`. Instantiating `m` gives those chords.

=== FILE: scenarios.dfy ===
/**
  Worked chords under small explicit keymaps, tying the general lemmas to
  recognisable behaviour.
*/
module Scenarios {
  import opened Text
  import opened Translator

  /** A keymap whose only entry maps the modifier alias `name` to itself. */
  function OneModifier(name: string): (km: Keymap)
    ensures name in km.modifierAliases && km.modifierAliases[name] == name
    ensures km.symbolKeys == map[] && km.keyNames == map[]
  {
    Keymap(map[name := name], map[], map[])
  }

  /** A chord that is one self-named modifier plans to that modifier and no key. */
  lemma ModifierOnlyPlan(name: string)
    requires name != "" && NoWhitespace(name) && '-' !in name && ':' !in name
    ensures PlanChord(name, OneModifier(name)) == Plan([name], "", Key, 1)
  {
    var km := OneModifier(name);
    SplitJoin([name], '-');
    assert Split(name, '-') == [name];
    assert AliasPrefix([name], km.modifierAliases) == 1;
    assert [name][1..] == [];
  }

  /** With a lone self-named modifier, the bare chord emits that modifier's actions. */
  lemma ModifierOnlyActions(name: string)
    requires name != "" && NoWhitespace(name) && '-' !in name && ':' !in name
    ensures ActionsForChord(name, OneModifier(name)) == ModsOnlyActions([name])
  {
    ModifierOnlyPlan(name);
    ActionsForWord(name, OneModifier(name));
  }

  /** A single modifier's actions are one press and one release. */
  lemma SingleModifierPair(name: string)
    ensures ModsOnlyActions([name]) == [Line(KeyDown, name), Line(KeyUp, name)]
  {
  }

  /** With a lone self-named modifier, the bare chord presses and releases it once. */
  lemma ModifierIsOnePair(name: string)
    requires name != "" && NoWhitespace(name) && '-' !in name && ':' !in name
    ensures ActionsForChord(name, OneModifier(name)) == [Line(KeyDown, name), Line(KeyUp, name)]
  {
    ModifierOnlyActions(name);
    SingleModifierPair(name);
  }

  /**
    With a lone self-named modifier such as `super`, the chord `super:3` (any
    count) presses and releases `super` exactly once: the count is dropped.
  */
  lemma ModifierRepeatIsOnePair(name: string, digits: string)
    requires name != "" && NoWhitespace(name) && '-' !in name && ':' !in name
    requires IsAllDigits(digits)
    ensures ActionsForChord(name + ":" + digits, OneModifier(name))
            == [Line(KeyDown, name), Line(KeyUp, name)]
  {
    ModifierOnlyPlan(name);
    ModifierChordIgnoresRepeat(name, digits, OneModifier(name));
    ModifierIsOnePair(name);
  }

  /** A chord string of two modifiers and a key joins the three with `+`. */
  lemma BuildChordOfTwo(a: string, b: string, key: string)
    requires key != ""
    ensures BuildChord([a, b], key) == a + "+" + b + "+" + key
  {
    var parts := [a, b] + [key];
    assert parts[1..] == [b, key];
    assert parts[1..][1..] == [key];
    assert Join([b, key], '+') == b + "+" + key;
  }

  /** Under a lone self-named modifier `m`, the chord `m-X` splits into modifier `m` and key `X`. */
  lemma ShiftedLetterSplit(m: string, ch: char)
    requires m != "" && '-' !in m && IsUpper(ch) && m != [ch]
    ensures SplitModifiers(m + "-" + [ch], OneModifier(m).modifierAliases) == Chord([m], [ch])
  {
    var km := OneModifier(m);
    assert Join([m, [ch]], '-') == m + "-" + [ch];
    assert '-' !in [ch];
    SplitJoin([m, [ch]], '-');
    assert AliasPrefix([m, [ch]], km.modifierAliases) == 1;
    assert [m, [ch]][1..] == [[ch]];
  }

  /**
    Under a lone self-named modifier `m`, the chord `m-X` with an upper-case
    letter `X` plans to modifiers `m` and `shift` and the lower-case letter.
  */
  lemma ShiftedLetterPlan(m: string, ch: char)
    requires m != "" && '-' !in m && ':' !in m
    requires IsUpper(ch) && m != [ch] && m != "shift"
    ensures PlanChord(m + "-" + [ch], OneModifier(m)) == Plan([m, "shift"], [LowerChar(ch)], Key, 1)
  {
    var chord := m + "-" + [ch];
    assert ':' !in chord;
    ShiftedLetterSplit(m, ch);
    assert Lower([ch]) == [LowerChar(ch)];
    assert Lower([LowerChar(ch)]) == [LowerChar(ch)];
  }

  lemma NoWhitespaceHyphenated(m: string, ch: char)
    requires NoWhitespace(m) && IsUpper(ch)
    ensures NoWhitespace(m + "-" + [ch])
  {
    var s := m + "-" + [ch];
    forall i | 0 <= i < |s|
      ensures !IsWhitespace(s[i])
    {
      if i < |m| {
        assert s[i] == m[i];
      }
    }
  }

  /** The same chord emits exactly what its plan emits. */
  lemma ShiftedLetterEmits(m: string, ch: char)
    requires m != "" && NoWhitespace(m) && '-' !in m && ':' !in m
    requires IsUpper(ch) && m != [ch] && m != "shift"
    ensures ActionsForChord(m + "-" + [ch], OneModifier(m)) == Emit(Plan([m, "shift"], [LowerChar(ch)], Key, 1))
  {
    ShiftedLetterPlan(m, ch);
    NoWhitespaceHyphenated(m, ch);
    ActionsForWord(m + "-" + [ch], OneModifier(m));
  }

  /** A plan of two modifiers, a key and one `key` press emits a single `key` line. */
  lemma EmitTwoModifiers(a: string, b: string, key: string)
    requires key != ""
    ensures Emit(Plan([a, b], key, Key, 1)) == [Line(Key, a + "+" + b + "+" + key)]
  {
    BuildChordOfTwo(a, b, key);
  }

  /**
    The same chord emits one `key` line whose chord string is `m+shift+x`:
    the upper-case letter becomes `shift` plus its lower-case form.
  */
  lemma ShiftedLetterActions(m: string, ch: char)
    requires m != "" && NoWhitespace(m) && '-' !in m && ':' !in m
    requires IsUpper(ch) && m != [ch] && m != "shift"
    ensures ActionsForChord(m + "-" + [ch], OneModifier(m)) == [Line(Key, m + "+" + "shift" + "+" + [LowerChar(ch)])]
  {
    ShiftedLetterEmits(m, ch);
    EmitTwoModifiers(m, "shift", [LowerChar(ch)]);
  }
}

=== FILE: text.dfy ===
/**
  Character and string primitives the key translator is built from: the
  small part of Python's `str` behaviour it relies on (`split`, `rsplit`,
  `join`, `strip`, `lower`, `isdigit`, `int`), restricted to ASCII.

  Modelling assumptions:
  - letters and digits are the ASCII ones;
  - whitespace is the ASCII whitespace Python's `str.split()` and
    `str.strip()` recognise: space, TAB, LF, VT, FF, CR and the four
    separators U+001C..U+001F.
*/
module Text {

  datatype Option<+T> = None | Some(value: T)

  // ---------------------------------------------------------------------------
  // Characters
  // ---------------------------------------------------------------------------

  predicate IsWhitespace(c: char) {
    c == ' ' || '\t' <= c <= '\r' || '\U{1C}' <= c <= '\U{1F}'
  }

  predicate IsDigit(c: char) {
    '0' <= c <= '9'
  }

  predicate IsUpper(c: char) {
    'A' <= c <= 'Z'
  }

  predicate IsLowerLetter(c: char) {
    'a' <= c <= 'z'
  }

  /** ASCII lower-casing of one character. */
  function LowerChar(c: char): (d: char)
    ensures !IsUpper(d)
    ensures IsUpper(c) ==> IsLowerLetter(d) && d as int - 'a' as int == c as int - 'A' as int
    ensures !IsUpper(c) ==> d == c
  {
    if IsUpper(c) then (c as int + ('a' as int - 'A' as int)) as char else c
  }

  // ---------------------------------------------------------------------------
  // Whole-string predicates
  // ---------------------------------------------------------------------------

  predicate StartsWith(s: string, prefix: string) {
    |prefix| <= |s| && s[..|prefix|] == prefix
  }

  predicate NoWhitespace(s: string) {
    forall i | 0 <= i < |s| :: !IsWhitespace(s[i])
  }

  predicate AllWhitespace(s: string) {
    forall i | 0 <= i < |s| :: IsWhitespace(s[i])
  }

  /** Python's `str.isdigit()` on ASCII: non-empty and every character a digit. */
  predicate IsAllDigits(s: string) {
    |s| > 0 && forall i | 0 <= i < |s| :: IsDigit(s[i])
  }

  // ---------------------------------------------------------------------------
  // Lower-casing (`str.lower()`)
  // ---------------------------------------------------------------------------

  function Lower(s: string): (r: string)
    ensures |r| == |s|
    ensures forall i | 0 <= i < |s| :: r[i] == LowerChar(s[i])
    ensures forall i | 0 <= i < |r| :: !IsUpper(r[i])
  {
    if s == [] then [] else [LowerChar(s[0])] + Lower(s[1..])
  }

  /** Lower-casing a string twice is lower-casing it once. */
  lemma LowerIdempotent(s: string)
    ensures Lower(Lower(s)) == Lower(s)
  {
    var l := Lower(s);
    assert forall i | 0 <= i < |l| :: LowerChar(l[i]) == l[i];
  }

  /** A digit string holds no whitespace. */
  lemma DigitsNoWhitespace(s: string)
    requires IsAllDigits(s)
    ensures NoWhitespace(s)
  {
    forall i | 0 <= i < |s|
      ensures !IsWhitespace(s[i])
    {
      assert IsDigit(s[i]);
    }
  }

  /** Concatenation regrouped. */
  lemma Regroup<T>(a: seq<T>, b: seq<T>, c: seq<T>, d: seq<T>)
    ensures (a + b) + (c + d) == a + (b + c) + d
  {
  }

  // ---------------------------------------------------------------------------
  // Stripping (`str.strip()`)
  // ---------------------------------------------------------------------------

  /** Number of leading whitespace characters. */
  function LeadingSpace(s: string): (n: nat)
    ensures n <= |s|
    ensures forall i | 0 <= i < n :: IsWhitespace(s[i])
    ensures n < |s| ==> !IsWhitespace(s[n])
  {
    if s == [] || !IsWhitespace(s[0]) then 0 else 1 + LeadingSpace(s[1..])
  }

  /** Length of `s` once trailing whitespace is dropped. */
  function TrailingStart(s: string): (n: nat)
    ensures n <= |s|
    ensures forall i | n <= i < |s| :: IsWhitespace(s[i])
    ensures 0 < n ==> !IsWhitespace(s[n - 1])
  {
    if s == [] || !IsWhitespace(s[|s| - 1]) then |s| else TrailingStart(s[..|s| - 1])
  }

  /** `s.strip()`: `s` with leading and trailing whitespace removed. */
  function Strip(s: string): (r: string)
    ensures |r| <= |s|
    ensures r == [] <==> AllWhitespace(s)
    ensures r != [] ==> !IsWhitespace(r[0]) && !IsWhitespace(r[|r| - 1])
    ensures NoWhitespace(s) ==> r == s
    ensures LeadingSpace(s) + |r| <= |s| && r == s[LeadingSpace(s)..LeadingSpace(s) + |r|]
    ensures AllWhitespace(s[LeadingSpace(s) + |r|..])
  {
    var lo := LeadingSpace(s);
    var hi := TrailingStart(s);
    if lo < hi then s[lo..hi] else []
  }

  /** Stripping an already stripped string changes nothing. */
  lemma StripIdempotent(s: string)
    ensures Strip(Strip(s)) == Strip(s)
  {
    var r := Strip(s);
    if r != [] {
      assert LeadingSpace(r) == 0;
      assert TrailingStart(r) == |r|;
    }
  }

  /**
    The stripped string is the unique core of `s`: padding a string that
    starts and ends with a non-whitespace character by whitespace on either
    side, and stripping, gives that string back.
  */
  lemma StripPadded(a: string, m: string, b: string)
    requires AllWhitespace(a) && AllWhitespace(b)
    requires m != [] && !IsWhitespace(m[0]) && !IsWhitespace(m[|m| - 1])
    ensures Strip(a + m + b) == m
  {
    var s := a + m + b;
    var lo, hi := LeadingSpace(s), TrailingStart(s);
    forall i | 0 <= i < |a|
      ensures IsWhitespace(s[i])
    {
      assert s[i] == a[i];
    }
    forall i | |a| + |m| <= i < |s|
      ensures IsWhitespace(s[i])
    {
      assert s[i] == b[i - |a| - |m|];
    }
    assert s[|a|] == m[0];
    assert s[|a| + |m| - 1] == m[|m| - 1];
    assert lo == |a|;
    assert hi == |a| + |m|;
    assert s[lo..hi] == m;
  }

  // ---------------------------------------------------------------------------
  // Splitting on one separator (`str.split(sep)`) and joining (`sep.join`)
  // ---------------------------------------------------------------------------

  /** Splits `s` at every `sep`; `cur` is the field read so far. */
  function Fields(s: string, sep: char, cur: string): (r: seq<string>)
    requires sep !in cur
    ensures |r| >= 1
    ensures forall i | 0 <= i < |r| :: sep !in r[i]
    decreases |s|
  {
    if s == [] then [cur]
    else if s[0] == sep then [cur] + Fields(s[1..], sep, [])
    else Fields(s[1..], sep, cur + [s[0]])
  }

  /** `s.split(sep)`: never empty; `"".split(sep) == [""]`. */
  function Split(s: string, sep: char): (r: seq<string>)
    ensures |r| >= 1
    ensures forall i | 0 <= i < |r| :: sep !in r[i]
  {
    Fields(s, sep, [])
  }

  /** `sep.join(parts)`. */
  function Join(parts: seq<string>, sep: char): string
  {
    if |parts| == 0 then []
    else if |parts| == 1 then parts[0]
    else parts[0] + [sep] + Join(parts[1..], sep)
  }

  /** Appending a part to a non-empty list appends the separator and that part to the join. */
  lemma {:induction false} JoinSnoc(parts: seq<string>, last: string, sep: char)
    requires parts != []
    ensures Join(parts + [last], sep) == Join(parts, sep) + [sep] + last
    decreases |parts|
  {
    var all := parts + [last];
    if |parts| == 1 {
      assert all == [parts[0], last];
      assert all[1..] == [last];
    } else {
      assert all[1..] == parts[1..] + [last];
      JoinSnoc(parts[1..], last, sep);
    }
  }

  lemma {:induction false} JoinFields(s: string, sep: char, cur: string)
    requires sep !in cur
    ensures Join(Fields(s, sep, cur), sep) == cur + s
    decreases |s|
  {
    if s == [] {
    } else if s[0] == sep {
      var rest := Fields(s[1..], sep, []);
      JoinFields(s[1..], sep, []);
      assert ([cur] + rest)[1..] == rest;
      assert cur + s == cur + [sep] + s[1..];
    } else {
      JoinFields(s[1..], sep, cur + [s[0]]);
      assert cur + s == cur + [s[0]] + s[1..];
    }
  }

  /** Joining the fields of a split restores the string. */
  lemma JoinSplit(s: string, sep: char)
    ensures Join(Split(s, sep), sep) == s
  {
    JoinFields(s, sep, []);
  }

  lemma {:induction false} FieldsSkip(p: string, rest: string, sep: char, cur: string)
    requires sep !in cur && sep !in p
    ensures Fields(p + rest, sep, cur) == Fields(rest, sep, cur + p)
    decreases |p|
  {
    if p == [] {
      assert p + rest == rest;
      assert cur + p == cur;
    } else {
      assert (p + rest)[0] == p[0];
      assert (p + rest)[1..] == p[1..] + rest;
      FieldsSkip(p[1..], rest, sep, cur + [p[0]]);
      assert cur + [p[0]] + p[1..] == cur + p;
    }
  }

  lemma {:induction false} FieldsJoin(parts: seq<string>, sep: char, cur: string)
    requires |parts| >= 1
    requires sep !in cur
    requires forall i | 0 <= i < |parts| :: sep !in parts[i]
    ensures Fields(Join(parts, sep), sep, cur) == [cur + parts[0]] + parts[1..]
    decreases |parts|
  {
    if |parts| == 1 {
      FieldsSkip(parts[0], [], sep, cur);
      assert parts[0] + [] == parts[0];
    } else {
      var tail := Join(parts[1..], sep);
      assert Join(parts, sep) == parts[0] + ([sep] + tail);
      FieldsSkip(parts[0], [sep] + tail, sep, cur);
      assert ([sep] + tail)[1..] == tail;
      FieldsJoin(parts[1..], sep, []);
      assert [] + parts[1..][0] == parts[1];
      assert [parts[1]] + parts[1..][1..] == parts[1..];
    }
  }

  /** Splitting a join of separator-free parts gives the parts back. */
  lemma SplitJoin(parts: seq<string>, sep: char)
    requires |parts| >= 1
    requires forall i | 0 <= i < |parts| :: sep !in parts[i]
    ensures Split(Join(parts, sep), sep) == parts
  {
    FieldsJoin(parts, sep, []);
    assert [] + parts[0] == parts[0];
  }

  // ---------------------------------------------------------------------------
  // Splitting on whitespace runs (`str.split()` with no argument)
  // ---------------------------------------------------------------------------

  /** Splits `s` into whitespace-free words; `cur` is the word read so far. */
  function Words(s: string, cur: string): (r: seq<string>)
    requires NoWhitespace(cur)
    ensures forall i | 0 <= i < |r| :: r[i] != [] && NoWhitespace(r[i])
    decreases |s|
  {
    if s == [] then (if cur == [] then [] else [cur])
    else if IsWhitespace(s[0]) then
      (if cur == [] then Words(s[1..], []) else [cur] + Words(s[1..], []))
    else Words(s[1..], cur + [s[0]])
  }

  /** `s.split()`: the maximal non-empty runs of non-whitespace, in order. */
  function SplitWhitespace(s: string): (r: seq<string>)
    ensures forall i | 0 <= i < |r| :: r[i] != [] && NoWhitespace(r[i])
  {
    Words(s, [])
  }

  lemma {:induction false} WordsAllWhitespace(s: string)
    requires AllWhitespace(s)
    ensures Words(s, []) == []
    decreases |s|
  {
    if s != [] {
      WordsAllWhitespace(s[1..]);
    }
  }

  /** A blank string has no words. */
  lemma SplitWhitespaceBlank(s: string)
    ensures AllWhitespace(s) ==> SplitWhitespace(s) == []
  {
    if AllWhitespace(s) {
      WordsAllWhitespace(s);
    }
  }

  lemma {:induction false} WordsAppend(a: string, c: char, b: string, cur: string)
    requires NoWhitespace(cur)
    requires IsWhitespace(c)
    ensures Words(a + [c] + b, cur) == Words(a, cur) + Words(b, [])
    decreases |a|
  {
    if a == [] {
      assert a + [c] + b == [c] + b;
      assert ([c] + b)[1..] == b;
    } else {
      assert (a + [c] + b)[0] == a[0];
      assert (a + [c] + b)[1..] == a[1..] + [c] + b;
      if IsWhitespace(a[0]) {
        WordsAppend(a[1..], c, b, []);
      } else {
        WordsAppend(a[1..], c, b, cur + [a[0]]);
      }
    }
  }

  /** Whitespace separates words: the words of `a + c + b` are those of `a` then those of `b`. */
  lemma SplitWhitespaceAppend(a: string, c: char, b: string)
    requires IsWhitespace(c)
    ensures SplitWhitespace(a + [c] + b) == SplitWhitespace(a) + SplitWhitespace(b)
  {
    WordsAppend(a, c, b, []);
  }

  lemma {:induction false} WordsOfWord(w: string, cur: string)
    requires NoWhitespace(cur) && NoWhitespace(w)
    requires cur + w != []
    ensures Words(w, cur) == [cur + w]
    decreases |w|
  {
    if w == [] {
      assert cur + w == cur;
    } else {
      WordsOfWord(w[1..], cur + [w[0]]);
      assert cur + [w[0]] + w[1..] == cur + w;
    }
  }

  /** A non-empty whitespace-free string is a single word. */
  lemma SplitWhitespaceWord(w: string)
    requires w != [] && NoWhitespace(w)
    ensures SplitWhitespace(w) == [w]
  {
    WordsOfWord(w, []);
    assert [] + w == w;
  }

  /** Words joined by single spaces split back into the same words. */
  lemma {:induction false} SplitWhitespaceJoin(words: seq<string>)
    requires forall i | 0 <= i < |words| :: words[i] != [] && NoWhitespace(words[i])
    ensures SplitWhitespace(Join(words, ' ')) == words
    decreases |words|
  {
    if |words| == 0 {
    } else if |words| == 1 {
      SplitWhitespaceWord(words[0]);
    } else {
      SplitWhitespaceAppend(words[0], ' ', Join(words[1..], ' '));
      SplitWhitespaceWord(words[0]);
      SplitWhitespaceJoin(words[1..]);
      assert [words[0]] + words[1..] == words;
    }
  }

  // ---------------------------------------------------------------------------
  // Splitting at the last separator (`str.rsplit(sep, 1)`)
  // ---------------------------------------------------------------------------

  /**
    The text before and after the last `sep` in `s`, or `None` when `s` has
    no `sep` (where `s.rsplit(sep, 1)` would give the one-element list `[s]`).
  */
  function RSplitOnce(s: string, sep: char): (r: Option<(string, string)>)
    ensures r.None? <==> sep !in s
    ensures r.Some? ==> s == r.value.0 + [sep] + r.value.1 && sep !in r.value.1
    decreases |s|
  {
    if s == [] then None
    else
      var init, last := s[..|s| - 1], s[|s| - 1];
      assert s == init + [last];
      if last == sep then Some((init, []))
      else match RSplitOnce(init, sep)
        case None => None
        case Some((before, after)) => Some((before, after + [last]))
  }

  /** The last `sep` of `a + [sep] + b`, when `b` has none, is the one after `a`. */
  lemma {:induction false} RSplitOnceAppend(a: string, sep: char, b: string)
    requires sep !in b
    ensures RSplitOnce(a + [sep] + b, sep) == Some((a, b))
    decreases |b|
  {
    var s := a + [sep] + b;
    if b == [] {
      assert s[..|s| - 1] == a;
    } else {
      assert s[|s| - 1] == b[|b| - 1];
      assert s[..|s| - 1] == a + [sep] + b[..|b| - 1];
      RSplitOnceAppend(a, sep, b[..|b| - 1]);
      assert b[..|b| - 1] + [b[|b| - 1]] == b;
    }
  }

  // ---------------------------------------------------------------------------
  // Decimal numbers (`int(s)` on digit strings, and its inverse `str(n)`)
  // ---------------------------------------------------------------------------

  function DigitValue(c: char): (d: nat)
    requires IsDigit(c)
    ensures d < 10
  {
    c as int - '0' as int
  }

  function DigitChar(d: nat): (c: char)
    requires d < 10
    ensures IsDigit(c) && DigitValue(c) == d
  {
    ('0' as int + d) as char
  }

  /** The value of a decimal digit string; leading zeros are allowed, as in `int("007")`. */
  function ParseNat(s: string): nat
    requires forall i | 0 <= i < |s| :: IsDigit(s[i])
  {
    if s == [] then 0 else 10 * ParseNat(s[..|s| - 1]) + DigitValue(s[|s| - 1])
  }

  /** The shortest decimal spelling of `n`. */
  function ShowNat(n: nat): (s: string)
    ensures IsAllDigits(s)
  {
    if n < 10 then [DigitChar(n)] else ShowNat(n / 10) + [DigitChar(n % 10)]
  }

  /** Reading back the decimal spelling of `n` gives `n`. */
  lemma {:induction false} ParseShowNat(n: nat)
    ensures ParseNat(ShowNat(n)) == n
  {
    var s := ShowNat(n);
    if n < 10 {
      assert s[..0] == [];
    } else {
      assert s[..|s| - 1] == ShowNat(n / 10);
      ParseShowNat(n / 10);
    }
  }
}

=== FILE: translator.dfy ===
/**
  The Talon-to-dotool chord translator of `apps/sublime_key_logger.py`.

  A key spec is a whitespace-separated list of chords such as `ctrl-shift-a`,
  `esc:3` or `super:down`. Each chord becomes zero or more dotool action
  lines `key <chord>`, `keydown <chord>` or `keyup <chord>`, where
  `<chord>` is the `+`-joined modifiers followed by the key name.

  The three lookup tables the source imports from `.keymap_dotool` are not
  part of this model; they are a `Keymap` parameter with arbitrary contents.
*/
module Translator {
  import opened Text

  /** `MODIFIER_ALIASES`, `SYMBOL_KEY_MAP` and `KEY_NAME_MAP`. */
  datatype Keymap = Keymap(
    modifierAliases: map<string, string>,
    symbolKeys: map<string, string>,
    keyNames: map<string, string>)

  /** The action kind of an output line. */
  datatype Verb = Key | KeyDown | KeyUp

  function VerbName(v: Verb): string {
    match v
    case Key => "key"
    case KeyDown => "keydown"
    case KeyUp => "keyup"
  }

  /** One dotool action line, `"<verb> <chord>"`. */
  function Line(v: Verb, chord: string): string {
    VerbName(v) + " " + chord
  }

  /** Reads an action line back into its verb and chord. */
  function ParseLine(line: string): Option<(Verb, string)> {
    if StartsWith(line, "keydown ") then Some((KeyDown, line[8..]))
    else if StartsWith(line, "keyup ") then Some((KeyUp, line[6..]))
    else if StartsWith(line, "key ") then Some((Key, line[4..]))
    else None
  }

  /** Every action line names its verb and chord unambiguously. */
  lemma ParseLineOfLine(v: Verb, chord: string)
    ensures ParseLine(Line(v, chord)) == Some((v, chord))
  {
    var l := Line(v, chord);
    match v
    case Key =>
      assert l[3] == ' ';
      assert l[4..] == chord;
    case KeyDown =>
      assert l[..8] == "keydown ";
      assert l[8..] == chord;
    case KeyUp =>
      assert l[3] == 'u';
      assert l[..6] == "keyup ";
      assert l[6..] == chord;
  }

  /** Distinct (verb, chord) pairs give distinct lines. */
  lemma LineInjective(v1: Verb, c1: string, v2: Verb, c2: string)
    ensures Line(v1, c1) == Line(v2, c2) ==> v1 == v2 && c1 == c2
  {
    ParseLineOfLine(v1, c1);
    ParseLineOfLine(v2, c2);
  }

  // ---------------------------------------------------------------------------
  // Suffixes: `_parse_suffix`
  // ---------------------------------------------------------------------------

  /** A chord with its `:down`, `:up` or `:N` suffix taken off. */
  datatype Suffixed = Suffixed(base: string, verb: Verb, repeat: nat)

  /** The verb a `down` or `up` suffix selects; no other suffix selects one. */
  function PressSuffix(suffix: string): (r: Option<Verb>)
    ensures r.Some? <==> suffix == "down" || suffix == "up"
    ensures suffix == "down" <==> r == Some(KeyDown)
    ensures suffix == "up" <==> r == Some(KeyUp)
    ensures r.Some? ==> r.value != Key && !IsAllDigits(suffix) && ':' !in suffix && NoWhitespace(suffix)
  {
    if suffix == "down" then assert !IsDigit(suffix[0]); Some(KeyDown)
    else if suffix == "up" then assert !IsDigit(suffix[0]); Some(KeyUp)
    else None
  }

  function Max(a: nat, b: nat): nat {
    if a < b then b else a
  }

  /**
    Splits the suffix after the last `:`. A digit suffix is a repeat count
    clamped to at least 1; `down` and `up` select the verb; any other suffix
    is ignored and the whole chord is kept as the base.
  */
  function ParseSuffix(chord: string): (r: Suffixed)
    ensures r.repeat >= 1
    ensures r.verb != Key ==> r.repeat == 1
    ensures ':' !in chord ==> r == Suffixed(chord, Key, 1)
    ensures r.base != chord ==> exists suffix :: chord == r.base + ":" + suffix
  {
    match RSplitOnce(chord, ':')
    case None => Suffixed(chord, Key, 1)
    case Some((base, suffix)) =>
      if IsAllDigits(suffix) then Suffixed(base, Key, Max(1, ParseNat(suffix)))
      else match PressSuffix(suffix)
        case Some(v) => Suffixed(base, v, 1)
        case None => Suffixed(chord, Key, 1)
  }

  lemma ParseSuffixSplit(base: string, suffix: string)
    requires ':' !in suffix
    ensures RSplitOnce(base + ":" + suffix, ':') == Some((base, suffix))
  {
    RSplitOnceAppend(base, ':', suffix);
  }

  /** `:down` and `:up` select their verb with a single repetition, whatever the base. */
  lemma ParseSuffixPress(base: string, suffix: string)
    requires PressSuffix(suffix).Some?
    ensures ParseSuffix(base + ":" + suffix) == Suffixed(base, PressSuffix(suffix).value, 1)
  {
    ParseSuffixSplit(base, suffix);
  }

  /** A digit suffix is a repeat count, clamped so that it is at least 1. */
  lemma ParseSuffixRepeat(base: string, digits: string)
    requires IsAllDigits(digits)
    ensures ParseSuffix(base + ":" + digits) == Suffixed(base, Key, Max(1, ParseNat(digits)))
  {
    ParseSuffixSplit(base, digits);
  }

  /** Appending `:N` for any count `N` reads back as `N` repetitions, or 1 when `N` is 0. */
  lemma ParseSuffixCount(base: string, n: nat)
    ensures ParseSuffix(base + ":" + ShowNat(n)) == Suffixed(base, Key, Max(1, n))
  {
    ParseSuffixRepeat(base, ShowNat(n));
    ParseShowNat(n);
  }

  /** Any other suffix is not split off: the whole chord is the base. */
  lemma ParseSuffixFallback(base: string, suffix: string)
    requires ':' !in suffix
    requires !IsAllDigits(suffix) && PressSuffix(suffix).None?
    ensures ParseSuffix(base + ":" + suffix) == Suffixed(base + ":" + suffix, Key, 1)
  {
    ParseSuffixSplit(base, suffix);
  }

  // ---------------------------------------------------------------------------
  // Modifiers: `_split_modifiers`
  // ---------------------------------------------------------------------------

  /** Modifiers and key of a chord. */
  datatype Chord = Chord(mods: seq<string>, key: string)

  /** Length of the longest prefix of `parts` whose elements are all aliases. */
  function AliasPrefix(parts: seq<string>, aliases: map<string, string>): (k: nat)
    ensures k <= |parts|
    ensures forall i | 0 <= i < k :: parts[i] in aliases
    ensures k < |parts| ==> parts[k] !in aliases
  {
    if parts == [] || parts[0] !in aliases then 0 else 1 + AliasPrefix(parts[1..], aliases)
  }

  /** The alias-table names of the longest alias prefix of `parts`. */
  function AliasRun(parts: seq<string>, aliases: map<string, string>): (r: seq<string>)
    ensures |r| == AliasPrefix(parts, aliases)
    ensures forall i | 0 <= i < |r| :: parts[i] in aliases && r[i] == aliases[parts[i]]
  {
    if parts == [] || parts[0] !in aliases then []
    else [aliases[parts[0]]] + AliasRun(parts[1..], aliases)
  }

  /**
    The loop of `_split_modifiers`: `mods` and `keyParts` are its two lists,
    `parts` the parts not yet visited.
  */
  function ScanParts(parts: seq<string>, aliases: map<string, string>,
                     mods: seq<string>, keyParts: seq<string>): (r: (seq<string>, seq<string>))
    ensures |r.0| + |r.1| == |mods| + |keyParts| + |parts|
    ensures keyParts != [] ==> r == (mods, keyParts + parts)
    decreases |parts|
  {
    if parts == [] then
      assert keyParts + parts == keyParts;
      (mods, keyParts)
    else if keyParts == [] && parts[0] in aliases then
      ScanParts(parts[1..], aliases, mods + [aliases[parts[0]]], keyParts)
    else
      assert keyParts + [parts[0]] + parts[1..] == keyParts + parts;
      ScanParts(parts[1..], aliases, mods, keyParts + [parts[0]])
  }

  /** Without a key part yet, the scan takes exactly the longest alias prefix as modifiers. */
  lemma {:induction false} ScanPartsPrefix(parts: seq<string>, aliases: map<string, string>, mods: seq<string>)
    ensures ScanParts(parts, aliases, mods, [])
            == (mods + AliasRun(parts, aliases), parts[AliasPrefix(parts, aliases)..])
    decreases |parts|
  {
    if parts == [] {
      assert mods + [] == mods;
    } else if parts[0] in aliases {
      var a := aliases[parts[0]];
      var tail := parts[1..];
      var j := AliasPrefix(tail, aliases);
      var run := AliasRun(tail, aliases);
      assert AliasPrefix(parts, aliases) == j + 1;
      assert AliasRun(parts, aliases) == [a] + run;
      assert tail[j..] == parts[j + 1..];
      assert mods + [a] + run == mods + ([a] + run);
      ScanPartsPrefix(tail, aliases, mods + [a]);
    } else {
      assert mods + [] == mods;
      assert [] + [parts[0]] + parts[1..] == parts;
    }
  }

  /**
    `_split_modifiers`: the modifiers are the longest prefix of the
    `-`-separated parts that are alias names, each renamed through the alias
    table; the key is the remaining parts joined back with `-`.
  */
  function SplitModifiers(chord: string, aliases: map<string, string>): (r: Chord)
    ensures var parts := Split(chord, '-');
            var k := AliasPrefix(parts, aliases);
            && |r.mods| == k
            && (forall i | 0 <= i < k :: r.mods[i] == aliases[parts[i]])
            && r.key == Join(parts[k..], '-')
    ensures Split(chord, '-')[0] !in aliases ==> r == Chord([], chord)
  {
    var parts := Split(chord, '-');
    ScanPartsPrefix(parts, aliases, []);
    JoinSplit(chord, '-');
    var scan := ScanParts(parts, aliases, [], []);
    Chord(scan.0, Join(scan.1, '-'))
  }

  /**
    Modifiers and key parts account for every part: when some part is not an
    alias, splitting the key at `-` recovers the key parts, and their number
    plus the number of modifiers is the number of parts.
  */
  lemma SplitModifiersCount(chord: string, aliases: map<string, string>)
    ensures var parts := Split(chord, '-');
            var r := SplitModifiers(chord, aliases);
            var k := AliasPrefix(parts, aliases);
            (k < |parts| ==> Split(r.key, '-') == parts[k..] && |r.mods| + |Split(r.key, '-')| == |parts|)
            && (k == |parts| ==> r.key == "" && |r.mods| == |parts|)
  {
    var parts := Split(chord, '-');
    var k := AliasPrefix(parts, aliases);
    if k < |parts| {
      SplitJoin(parts[k..], '-');
    }
  }

  // ---------------------------------------------------------------------------
  // Upper-case letters: `_normalize_alpha_key`
  // ---------------------------------------------------------------------------

  predicate IsSingleUpper(key: string) {
    |key| == 1 && IsUpper(key[0])
  }

  /**
    A key that is one upper-case letter becomes its lower-case form with
    `shift` among the modifiers; `shift` is appended only when absent.
  */
  function NormalizeAlphaKey(key: string, mods: seq<string>): (r: Chord)
    ensures IsSingleUpper(key) ==> "shift" in r.mods && r.key == Lower(key) && IsLowerLetter(r.key[0])
    ensures !IsSingleUpper(key) ==> r == Chord(mods, key)
    ensures "shift" in mods ==> r.mods == mods
    ensures |mods| <= |r.mods| <= |mods| + 1 && r.mods[..|mods|] == mods
    ensures multiset(r.mods)["shift"] == Max(multiset(mods)["shift"], if IsSingleUpper(key) then 1 else 0)
  {
    if key != "" && IsSingleUpper(key) then
      if "shift" in mods then Chord(mods, Lower(key))
      else Chord(mods + ["shift"], Lower(key))
    else Chord(mods, key)
  }

  /** Normalising a letter key a second time changes nothing. */
  lemma NormalizeAlphaKeyIdempotent(key: string, mods: seq<string>)
    ensures var r := NormalizeAlphaKey(key, mods);
            NormalizeAlphaKey(r.key, r.mods) == r
  {
  }

  // ---------------------------------------------------------------------------
  // Key names: `_normalize_key_name`
  // ---------------------------------------------------------------------------

  predicate IsRawKeycode(key: string) {
    StartsWith(key, "x:") || StartsWith(key, "k:")
  }

  function LookupOr(m: map<string, string>, k: string): string {
    if k in m then m[k] else k
  }

  /**
    `_normalize_key_name`, in precedence order: the empty key stays empty; a
    symbol-table entry wins; `keypad_X` becomes `kpX`; otherwise the key is
    lower-cased unless it is a raw `x:`/`k:` keycode, then looked up in the
    key-name table with itself as the fallback.
  */
  function NormalizeKeyName(key: string, km: Keymap): (r: string)
    ensures key == "" ==> r == ""
    ensures key != "" && key in km.symbolKeys ==> r == km.symbolKeys[key]
    ensures key != "" && key !in km.symbolKeys && StartsWith(key, "keypad_") ==> r == "kp" + key[7..]
    ensures key !in km.symbolKeys && !StartsWith(key, "keypad_") && IsRawKeycode(key)
            ==> r == LookupOr(km.keyNames, key)
    ensures key != "" && key !in km.symbolKeys && !StartsWith(key, "keypad_") && !IsRawKeycode(key)
            ==> r == LookupOr(km.keyNames, Lower(key))
  {
    if key == "" then key
    else if key in km.symbolKeys then km.symbolKeys[key]
    else if StartsWith(key, "keypad_") then "kp" + key[|"keypad_"|..]
    else
      var k := if !StartsWith(key, "x:") && !StartsWith(key, "k:") then Lower(key) else key;
      LookupOr(km.keyNames, k)
  }

  /**
    Outside the symbol table, the keypad rule and raw keycodes, a key name is
    case-insensitive: it normalises as its lower-case spelling does.
  */
  lemma NormalizeKeyNameIgnoresCase(key: string, km: Keymap)
    requires key !in km.symbolKeys && Lower(key) !in km.symbolKeys
    requires !StartsWith(key, "keypad_") && !StartsWith(Lower(key), "keypad_")
    requires key != "" && !IsRawKeycode(key)
    ensures NormalizeKeyName(key, km) == NormalizeKeyName(Lower(key), km)
  {
    LowerIdempotent(key);
  }

  /** A raw `x:`/`k:` keycode absent from both tables passes through with its case intact. */
  lemma NormalizeKeyNameRawKeycode(key: string, km: Keymap)
    requires IsRawKeycode(key)
    requires key !in km.symbolKeys && key !in km.keyNames
    ensures NormalizeKeyName(key, km) == key
  {
    assert key[1] == ':';
  }

  // ---------------------------------------------------------------------------
  // Output: `_build_chord`, `_mods_only_actions`
  // ---------------------------------------------------------------------------

  /** The parts a chord string is built from: the modifiers, then the key when non-empty. */
  function ChordParts(mods: seq<string>, key: string): seq<string> {
    if key != "" then mods + [key] else mods
  }

  /** `_build_chord`: the modifiers and the key joined with `+`. */
  function BuildChord(mods: seq<string>, key: string): (r: string)
    ensures mods == [] ==> r == key
    ensures key == "" ==> r == Join(mods, '+')
    ensures key != "" && mods != [] ==> r == Join(mods, '+') + "+" + key
    ensures |r| >= |key|
    ensures key != "" ==> r[|r| - |key|..] == key
  {
    JoinLast(mods, key);
    var r := Join(ChordParts(mods, key), '+');
    assert key != "" && mods != [] ==> r == Join(mods, '+') + "+" + key by {
      if key != "" && mods != [] {
        JoinSnoc(mods, key, '+');
      }
    }
    r
  }

  lemma {:induction false} JoinLast(mods: seq<string>, key: string)
    ensures var r := Join(ChordParts(mods, key), '+');
            |r| >= |key| && (key != "" ==> r[|r| - |key|..] == key)
    decreases |mods|
  {
    if mods != [] && key != "" {
      var parts := mods + [key];
      assert parts[1..] == mods[1..] + [key];
      JoinLast(mods[1..], key);
      if |mods| == 1 {
        assert parts[1..] == [key];
      }
    } else if key == "" {
    }
  }

  /** A chord string splits at `+` back into its modifiers and key, when none of them holds a `+`. */
  lemma BuildChordSplit(mods: seq<string>, key: string)
    requires forall i | 0 <= i < |mods| :: '+' !in mods[i]
    requires '+' !in key
    requires mods != [] || key != ""
    ensures Split(BuildChord(mods, key), '+') == ChordParts(mods, key)
  {
    SplitJoin(ChordParts(mods, key), '+');
  }

  /** One line per element of `items`, in order, each with verb `v`. */
  function Lines(v: Verb, items: seq<string>): (r: seq<string>)
    ensures |r| == |items|
    ensures forall i | 0 <= i < |items| :: r[i] == Line(v, items[i])
  {
    if items == [] then [] else [Line(v, items[0])] + Lines(v, items[1..])
  }

  function Reverse<T>(s: seq<T>): (r: seq<T>)
    ensures |r| == |s|
    ensures forall i | 0 <= i < |s| :: r[i] == s[|s| - 1 - i]
  {
    if s == [] then [] else Reverse(s[1..]) + [s[0]]
  }

  /**
    `_mods_only_actions`: press every modifier in order, then release them
    in reverse order.
  */
  function ModsOnlyActions(mods: seq<string>): (r: seq<string>)
    ensures |r| == 2 * |mods|
    ensures forall i | 0 <= i < |mods| :: r[i] == Line(KeyDown, mods[i])
    ensures forall i | |mods| <= i < 2 * |mods| :: r[i] == Line(KeyUp, mods[2 * |mods| - 1 - i])
  {
    if mods == [] then []
    else Lines(KeyDown, mods) + Lines(KeyUp, Reverse(mods))
  }

  /** The two halves of `_mods_only_actions`, including for no modifiers. */
  lemma ModsOnlyActionsHalves(mods: seq<string>)
    ensures ModsOnlyActions(mods) == Lines(KeyDown, mods) + Lines(KeyUp, Reverse(mods))
  {
    if mods == [] {
      assert Lines(KeyDown, mods) == [] && Lines(KeyUp, Reverse(mods)) == [];
    }
  }

  lemma ReverseCons(m: string, rest: seq<string>)
    ensures Reverse([m] + rest) == Reverse(rest) + [m]
  {
    assert ([m] + rest)[1..] == rest;
  }

  lemma LinesCons(v: Verb, m: string, rest: seq<string>)
    ensures Lines(v, [m] + rest) == [Line(v, m)] + Lines(v, rest)
  {
    assert ([m] + rest)[1..] == rest;
  }

  /**
    Presses and releases are well nested: the first modifier is pressed first
    and released last, around the actions of the others.
  */
  lemma ModsOnlyActionsNested(m: string, rest: seq<string>)
    ensures ModsOnlyActions([m] + rest)
            == [Line(KeyDown, m)] + ModsOnlyActions(rest) + [Line(KeyUp, m)]
  {
    var press, release := Line(KeyDown, m), Line(KeyUp, m);
    var down, up := Lines(KeyDown, rest), Lines(KeyUp, Reverse(rest));
    ModsOnlyActionsHalves([m] + rest);
    ModsOnlyActionsHalves(rest);
    LinesCons(KeyDown, m, rest);
    ReverseCons(m, rest);
    LinesAppend(KeyUp, Reverse(rest), [m]);
    assert Lines(KeyUp, [m]) == [release];
    Regroup([press], down, up, [release]);
  }

  lemma {:induction false} LinesAppend(v: Verb, a: seq<string>, b: seq<string>)
    ensures Lines(v, a + b) == Lines(v, a) + Lines(v, b)
    decreases |a|
  {
    if a == [] {
      assert a + b == b;
    } else {
      assert (a + b)[1..] == a[1..] + b;
      LinesAppend(v, a[1..], b);
    }
  }

  // ---------------------------------------------------------------------------
  // Per-chord translation: `_dotool_actions_for_chord`
  // ---------------------------------------------------------------------------

  /** `n` copies of `x`: `[x for _ in range(n)]`. */
  function Repeat(x: string, n: nat): (r: seq<string>)
    ensures |r| == n
    ensures forall i | 0 <= i < n :: r[i] == x
  {
    if n == 0 then [] else [x] + Repeat(x, n - 1)
  }

  /** What a non-blank chord reduces to before any line is emitted. */
  datatype Plan = Plan(mods: seq<string>, key: string, verb: Verb, repeat: nat)

  /** Suffix parse, modifier split, upper-case rule and key-name normalisation, in that order. */
  function PlanChord(chord: string, km: Keymap): (p: Plan)
    ensures p.repeat >= 1
  {
    var s := ParseSuffix(chord);
    var split := SplitModifiers(s.base, km.modifierAliases);
    var alpha := NormalizeAlphaKey(split.key, split.mods);
    Plan(alpha.mods, NormalizeKeyName(alpha.key, km), s.verb, s.repeat)
  }

  /**
    The emission rules: without a key the modifiers are pressed and released
    whatever the verb and repeat; otherwise `keydown`/`keyup` give one line
    and `key` gives `repeat` lines (at least one).
  */
  function Emit(p: Plan): (r: seq<string>)
    ensures p.key == "" ==> r == ModsOnlyActions(p.mods)
    ensures p.key != "" && p.verb != Key ==> r == [Line(p.verb, BuildChord(p.mods, p.key))]
    ensures p.key != "" && p.verb == Key ==>
              |r| == Max(1, p.repeat)
              && forall i | 0 <= i < |r| :: r[i] == Line(Key, BuildChord(p.mods, p.key))
  {
    if p.key == "" then ModsOnlyActions(p.mods)
    else
      var chordStr := BuildChord(p.mods, p.key);
      if p.verb != Key then [Line(p.verb, chordStr)]
      else if p.repeat <= 1 then [Line(Key, chordStr)]
      else Repeat(Line(Key, chordStr), p.repeat)
  }

  /** Every line is a well-formed action line. */
  predicate AllActionLines(lines: seq<string>) {
    forall i | 0 <= i < |lines| :: ParseLine(lines[i]).Some?
  }

  lemma AllActionLinesAppend(a: seq<string>, b: seq<string>)
    requires AllActionLines(a) && AllActionLines(b)
    ensures AllActionLines(a + b)
  {
    forall i | 0 <= i < |a + b|
      ensures ParseLine((a + b)[i]).Some?
    {
      if i < |a| {
        assert (a + b)[i] == a[i];
      } else {
        assert (a + b)[i] == b[i - |a|];
      }
    }
  }

  lemma LinesWellFormed(v: Verb, items: seq<string>)
    ensures AllActionLines(Lines(v, items))
  {
    var r := Lines(v, items);
    forall i | 0 <= i < |r|
      ensures ParseLine(r[i]).Some?
    {
      ParseLineOfLine(v, items[i]);
    }
  }

  /** Every emitted line is a well-formed action line. */
  lemma EmitWellFormed(p: Plan)
    ensures AllActionLines(Emit(p))
  {
    if p.key == "" {
      ModsOnlyActionsHalves(p.mods);
      LinesWellFormed(KeyDown, p.mods);
      LinesWellFormed(KeyUp, Reverse(p.mods));
      AllActionLinesAppend(Lines(KeyDown, p.mods), Lines(KeyUp, Reverse(p.mods)));
    } else {
      var line := Line(p.verb, BuildChord(p.mods, p.key));
      ParseLineOfLine(p.verb, BuildChord(p.mods, p.key));
      var r := Emit(p);
      forall i | 0 <= i < |r|
        ensures ParseLine(r[i]).Some?
      {
        assert r[i] == line;
      }
    }
  }

  /**
    `_dotool_actions_for_chord`: a blank chord gives no lines; otherwise the
    lines of the stripped chord's plan. No lines come out exactly when the
    chord is blank or reduces to neither a key nor a modifier.
  */
  function ActionsForChord(chord: string, km: Keymap): (r: seq<string>)
    ensures AllWhitespace(chord) ==> r == []
    ensures !AllWhitespace(chord) ==>
              var p := PlanChord(Strip(chord), km);
              (r == [] <==> p.key == "" && p.mods == [])
    ensures AllActionLines(r)
  {
    var c := Strip(chord);
    if c == "" then []
    else
      var p := PlanChord(c, km);
      EmitWellFormed(p);
      Emit(p)
  }

  /** Surrounding whitespace does not change a chord's lines. */
  lemma ActionsForChordStripped(chord: string, km: Keymap)
    ensures ActionsForChord(Strip(chord), km) == ActionsForChord(chord, km)
  {
    StripIdempotent(chord);
  }

  /** A non-blank whitespace-free chord is emitted from its own plan. */
  lemma ActionsForWord(c: string, km: Keymap)
    requires c != "" && NoWhitespace(c)
    ensures ActionsForChord(c, km) == Emit(PlanChord(c, km))
  {
  }

  /** The same, for a whitespace-free chord with a suffix appended. */
  lemma ActionsForSuffixedWord(c: string, suffix: string, km: Keymap)
    requires NoWhitespace(c) && NoWhitespace(suffix)
    ensures ActionsForChord(c + ":" + suffix, km) == Emit(PlanChord(c + ":" + suffix, km))
  {
    NoWhitespaceSuffixed(c, suffix);
    ActionsForWord(c + ":" + suffix, km);
  }

  /** `:down` and `:up` on a colon-free chord change only the verb of its plan. */
  lemma PlanChordPress(c: string, suffix: string, km: Keymap)
    requires ':' !in c
    requires PressSuffix(suffix).Some?
    ensures var p := PlanChord(c, km);
            && p.verb == Key && p.repeat == 1
            && PlanChord(c + ":" + suffix, km) == p.(verb := PressSuffix(suffix).value)
  {
    ParseSuffixPress(c, suffix);
  }

  /** `:N` on a colon-free chord changes only the repeat of its plan, to `max(1, N)`. */
  lemma PlanChordCount(c: string, digits: string, km: Keymap)
    requires ':' !in c
    requires IsAllDigits(digits)
    ensures var p := PlanChord(c, km);
            && p.verb == Key && p.repeat == 1
            && PlanChord(c + ":" + digits, km) == p.(repeat := Max(1, ParseNat(digits)))
  {
    ParseSuffixRepeat(c, digits);
  }

  /**
    On a non-empty, colon-free, whitespace-free chord that reduces to
    modifiers only, `:down` and `:up` are ignored: the chord still presses and releases its modifiers once, as
    the plain chord does.
  */
  lemma ModifierChordIgnoresPress(c: string, suffix: string, km: Keymap)
    requires c != "" && NoWhitespace(c) && ':' !in c
    requires PressSuffix(suffix).Some?
    requires PlanChord(c, km).key == ""
    ensures ActionsForChord(c + ":" + suffix, km) == ActionsForChord(c, km)
                                                 == ModsOnlyActions(PlanChord(c, km).mods)
  {
    PlanChordPress(c, suffix, km);
    ActionsForWord(c, km);
    ActionsForSuffixedWord(c, suffix, km);
  }

  /** On a non-empty, colon-free, whitespace-free chord that reduces to modifiers only, a `:N` repeat is ignored. */
  lemma ModifierChordIgnoresRepeat(c: string, digits: string, km: Keymap)
    requires c != "" && NoWhitespace(c) && ':' !in c
    requires IsAllDigits(digits)
    requires PlanChord(c, km).key == ""
    ensures ActionsForChord(c + ":" + digits, km) == ActionsForChord(c, km)
  {
    var p := PlanChord(c, km);
    ActionsForWord(c, km);
    ActionsForCount(c, digits, km);
    assert Emit(p.(repeat := Max(1, ParseNat(digits)))) == ModsOnlyActions(p.mods);
  }

  /**
    On a non-empty, colon-free, whitespace-free chord with a key, `:down`
    and `:up` give a single press or release
    line for the chord string the plain chord's `key` line uses.
  */
  lemma KeyChordPress(c: string, suffix: string, km: Keymap)
    requires c != "" && NoWhitespace(c) && ':' !in c
    requires PressSuffix(suffix).Some?
    requires PlanChord(c, km).key != ""
    ensures var p := PlanChord(c, km);
            var chordStr := BuildChord(p.mods, p.key);
            && ActionsForChord(c, km) == [Line(Key, chordStr)]
            && ActionsForChord(c + ":" + suffix, km) == [Line(PressSuffix(suffix).value, chordStr)]
  {
    PlanChordPress(c, suffix, km);
    ActionsForWord(c, km);
    ActionsForSuffixedWord(c, suffix, km);
  }

  /** A plan with a key and verb `key` emits its `key` line `repeat` times, once when `repeat` is 1. */
  lemma EmitRepeat(p: Plan, n: nat)
    requires p.key != "" && p.verb == Key && p.repeat == 1
    requires n >= 1
    ensures var line := Line(Key, BuildChord(p.mods, p.key));
            && Emit(p) == [line]
            && Emit(p.(repeat := n)) == Repeat(line, n)
  {
    var line := Line(Key, BuildChord(p.mods, p.key));
    if n == 1 {
      assert Repeat(line, 1) == [line];
    }
  }

  /**
    The lines of a non-empty, colon-free, whitespace-free chord with a `:N`
    suffix come from its plan with the repeat replaced.
  */
  lemma ActionsForCount(c: string, digits: string, km: Keymap)
    requires c != "" && NoWhitespace(c) && ':' !in c
    requires IsAllDigits(digits)
    ensures var p := PlanChord(c, km);
            && p.verb == Key && p.repeat == 1
            && ActionsForChord(c + ":" + digits, km) == Emit(p.(repeat := Max(1, ParseNat(digits))))
  {
    var s := c + ":" + digits;
    DigitsNoWhitespace(digits);
    NoWhitespaceSuffixed(c, digits);
    ActionsForWord(s, km);
    PlanChordCount(c, digits, km);
  }

  /**
    On a non-empty, colon-free, whitespace-free chord with a key, `:N`
    repeats the plain chord's `key` line `max(1, N)` times.
  */
  lemma KeyChordRepeat(c: string, digits: string, km: Keymap)
    requires c != "" && NoWhitespace(c) && ':' !in c
    requires IsAllDigits(digits)
    requires PlanChord(c, km).key != ""
    ensures var p := PlanChord(c, km);
            var line := Line(Key, BuildChord(p.mods, p.key));
            && ActionsForChord(c, km) == [line]
            && ActionsForChord(c + ":" + digits, km) == Repeat(line, Max(1, ParseNat(digits)))
  {
    var p := PlanChord(c, km);
    ActionsForWord(c, km);
    ActionsForCount(c, digits, km);
    EmitRepeat(p, Max(1, ParseNat(digits)));
  }

  lemma NoWhitespaceSuffixed(c: string, suffix: string)
    requires NoWhitespace(c) && NoWhitespace(suffix)
    ensures NoWhitespace(c + ":" + suffix)
  {
    var s := c + ":" + suffix;
    forall i | 0 <= i < |s|
      ensures !IsWhitespace(s[i])
    {
      if i < |c| {
        assert s[i] == c[i];
      } else if i > |c| {
        assert s[i] == suffix[i - |c| - 1];
      }
    }
  }

  // ---------------------------------------------------------------------------
  // Whole spec: `_talon_key_to_dotool_actions`
  // ---------------------------------------------------------------------------

  /** Every element's list, concatenated in order: `[y for x in xs for y in f(x)]`. */
  function FlatMap<T, U>(f: T -> seq<U>, xs: seq<T>): seq<U>
    decreases |xs|
  {
    if xs == [] then [] else f(xs[0]) + FlatMap(f, xs[1..])
  }

  lemma {:induction false} FlatMapAppend<T, U>(f: T -> seq<U>, a: seq<T>, b: seq<T>)
    ensures FlatMap(f, a + b) == FlatMap(f, a) + FlatMap(f, b)
    decreases |a|
  {
    if a == [] {
      assert a + b == b;
    } else {
      assert (a + b)[0] == a[0];
      assert (a + b)[1..] == a[1..] + b;
      FlatMapAppend(f, a[1..], b);
    }
  }

  lemma {:induction false} FlatMapActionLines(f: string -> seq<string>, xs: seq<string>)
    requires forall x :: AllActionLines(f(x))
    ensures AllActionLines(FlatMap(f, xs))
    decreases |xs|
  {
    if xs != [] {
      FlatMapActionLines(f, xs[1..]);
      AllActionLinesAppend(f(xs[0]), FlatMap(f, xs[1..]));
    }
  }

  /** The per-chord translation as a function value. */
  function ChordActions(km: Keymap): string -> seq<string> {
    c => ActionsForChord(c, km)
  }

  /** The lines of each chord, concatenated in order. */
  function ActionsForChords(chords: seq<string>, km: Keymap): (r: seq<string>)
    ensures AllActionLines(r)
  {
    FlatMapActionLines(ChordActions(km), chords);
    FlatMap(ChordActions(km), chords)
  }

  /** The first chord's lines come first. */
  lemma ActionsForChordsCons(x: string, rest: seq<string>, km: Keymap)
    ensures ActionsForChords([x] + rest, km) == ActionsForChord(x, km) + ActionsForChords(rest, km)
  {
    assert ([x] + rest)[0] == x;
    assert ([x] + rest)[1..] == rest;
  }

  /** Translating a concatenation of chord lists gives the two translations, in order. */
  lemma ActionsForChordsAppend(a: seq<string>, b: seq<string>, km: Keymap)
    ensures ActionsForChords(a + b, km) == ActionsForChords(a, km) + ActionsForChords(b, km)
  {
    FlatMapAppend(ChordActions(km), a, b);
  }

  /** `_talon_key_to_dotool_actions`: translate every whitespace-separated chord, in order. */
  function TalonKeyToDotoolActions(keySpec: string, km: Keymap): (r: seq<string>)
    ensures AllWhitespace(keySpec) ==> r == []
    ensures AllActionLines(r)
  {
    SplitWhitespaceBlank(keySpec);
    ActionsForChords(SplitWhitespace(keySpec), km)
  }

  /** A spec made of two specs separated by whitespace translates to the two translations, in order. */
  lemma TranslateAppend(a: string, sp: char, b: string, km: Keymap)
    requires IsWhitespace(sp)
    ensures TalonKeyToDotoolActions(a + [sp] + b, km)
            == TalonKeyToDotoolActions(a, km) + TalonKeyToDotoolActions(b, km)
  {
    SplitWhitespaceAppend(a, sp, b);
    ActionsForChordsAppend(SplitWhitespace(a), SplitWhitespace(b), km);
  }

  /** A spec that is a single chord translates as that chord. */
  lemma TranslateSingleChord(c: string, km: Keymap)
    requires c != "" && NoWhitespace(c)
    ensures TalonKeyToDotoolActions(c, km) == ActionsForChord(c, km)
  {
    SplitWhitespaceWord(c);
    ActionsForChordsCons(c, [], km);
    assert [c] + [] == [c];
  }

  /** Chords joined by spaces translate to the concatenation of their own lines. */
  lemma TranslateChords(chords: seq<string>, km: Keymap)
    requires forall i | 0 <= i < |chords| :: chords[i] != [] && NoWhitespace(chords[i])
    ensures TalonKeyToDotoolActions(Join(chords, ' '), km) == ActionsForChords(chords, km)
  {
    SplitWhitespaceJoin(chords);
  }

  // ---------------------------------------------------------------------------
  // The batch handed to `dotoolc`: `MainActions.key`
  // ---------------------------------------------------------------------------

  /**
    The standard input written to `dotoolc` for a list of lines: nothing is
    sent for no lines; otherwise the lines, each ended by a newline.
  */
  function BatchText(actions: seq<string>): (r: Option<string>)
    ensures r.None? <==> actions == []
    ensures r.Some? ==> |r.value| >= 1 && r.value[|r.value| - 1] == '\n'
  {
    if actions == [] then None else Some(Join(actions, '\n') + "\n")
  }

  /**
    `dotoolc` reads back exactly the lines, in order, when no line holds a
    newline of its own.
  */
  lemma BatchTextLines(actions: seq<string>)
    requires actions != []
    requires forall i | 0 <= i < |actions| :: '\n' !in actions[i]
    ensures var t := BatchText(actions).value;
            Split(t[..|t| - 1], '\n') == actions
  {
    var t := BatchText(actions).value;
    assert t[..|t| - 1] == Join(actions, '\n');
    SplitJoin(actions, '\n');
  }

  /** The batch for a key spec: the text for its translated lines. */
  function DotoolBatch(keySpec: string, km: Keymap): (r: Option<string>)
    ensures r.None? <==> TalonKeyToDotoolActions(keySpec, km) == []
    ensures r.Some? ==> |r.value| >= 1 && r.value[|r.value| - 1] == '\n'
  {
    BatchText(TalonKeyToDotoolActions(keySpec, km))
  }
}
